=== FILE: README.md ===
# Interactive list: reorder, filter and paging protocol

A Dafny model of the interactive list application. It has two parts: an
Express server that keeps a catalog of labelled items in memory, and a React
client that shows them in a virtualised, drag-reorderable, searchable list.

The server keeps three things:
- an immutable catalog;
- a canonical id order, `sortedIds`;
- a selection set.

It answers three requests:
- `GET /items` returns a filtered, ordered and windowed page;
- `GET /state` returns the first page of the canonical order, the catalog size and the selection;
- `POST /state` merges a reorder into `sortedIds`, replaces the selection, or both.

The client keeps a growing buffer of loaded rows. It does four things:
- grows the buffer when the list scrolls near its end;
- resets it whenever the settled search query changes;
- moves an item inside it when a row is dragged over another;
- sends the whole buffer's id order back to the server after each move.

Modules, one per part of the program:

| module | file | models |
|---|---|---|
| `Options` | options.dfy | `Option` and `Result` |
| `Seqs` | seqs.dfy | the array operations: order-preserving `filter`, one-element `splice` moves, and duplicate-freedom |
| `Text` | text.dfy | `toLowerCase` and `includes`, as used by the search filter |
| `Protocol` | protocol.dfy | items, entries, request bodies and replies on the wire |
| `Server` | server.dfy | the store and the three handlers of `server/index.js` |
| `ClientApp` | client_app.dfy | the state and transitions of `App` in `client/src/App.tsx` |
| `ListView` | list_view.dfy | the row count, row choice, hover resolution and load trigger of `client/src/components/VirtualizedList.tsx` |
| `Sync` | sync.dfy | client and server together |
| `Scenario` | scenario.dfy | concrete runs on a ten-item catalog |

`Sync` proves that the buffer stays a prefix of the server's filtered view
while replies come from the current store. It also proves that a drag keeps
the canonical order a permutation.

Each fetch (`GET /items`, `GET /state`) is split into two transitions:
- the one that issues it, which returns the requests in a `Step`'s `sent` field;
- the one that consumes its reply, which takes a `Reply` that is either `Delivered` or `NetError`.

`POST /state` is fired and not awaited, so it has only the issuing transition; `Sync.Deliver` applies it to the store.

The catalog is a parameter (`Server.Seed`). It is not the one million generated
items, so the concrete runs use ten items labelled `Элемент 1` … `Элемент 10`.

The reorder merge is modelled as the handler writes it (`Server.ApplyReorder`):
the ids sent come first, verbatim, followed by every other id of the old order
in its old relative order. The handler validates nothing. `Server.ReorderRepeatsDuplicates`
and `Server.ReorderAdmitsUnknownIds` exhibit repeated and unknown ids passing
through. The permutation property is therefore proved only for a duplicate-free
front drawn from the current order (`Server.ReorderIsPermutation`,
`Server.UpdatePreservesValid`).

A store whose canonical order must stay a permutation of the catalog would be
expected to reject a reorder that names unknown or repeated ids. The handler
does not reject it, and this model follows the handler.
`Server.CheckedReorder` is a separate validating variant that is *not* in the
handler. It shows what such a check would guarantee.

## Model

| member | source | states |
|---|---|---|
| Seqs.Keep | server/index.js:62 | `filter` by set membership keeps exactly the members of the set, each as often as in the input, in input order (a subsequence) |
| Seqs.Drop | server/index.js:43 | the complementary filter keeps exactly the non-members, each as often as before, as a subsequence |
| Seqs.Move | client/src/App.tsx:28-30 | splice out then splice in keeps length and multiset, puts the moved element at the target index, and leaves every other element in its relative order |
| Seqs.MoveBack | client/src/App.tsx:28-30 | moving an element back to its original index restores the sequence |
| Text.Lower | server/index.js:58 | lower-casing keeps the length and maps each character separately |
| Text.ContainsIffOccurs | server/index.js:58 | the left-to-right `includes` search succeeds exactly when the needle occurs at some index |
| Text.EmptySearchMatches | server/index.js:57-59 | every label matches the empty query, so it filters nothing |
| Text.LowerIdempotent | server/index.js:58 | lower-casing twice is lower-casing once |
| Text.MatchesIgnoresCase | server/index.js:58 | the filter gives the same answer for a label or query and its lower-cased form |
| Server.Seed | server/index.js:18-19 | the initial store keeps the catalog, takes the catalog's id order as its canonical order, starts with an empty selection, and satisfies the store invariant |
| Server.ValidOrderLength | server/index.js:18 | a valid canonical order is exactly as long as the catalog |
| Server.Lookup | server/index.js:65 | `find` returns the first catalog record carrying the id, and returns nothing exactly when no record carries it |
| Server.LookupUnique | server/index.js:65 | with unique catalog ids, `find` returns the one record holding the id |
| Server.FilteredIds | server/index.js:57-61 | an id is in the filter set exactly when some catalog record with that id has a label containing the query, ignoring case |
| Server.DisplayIds | server/index.js:62 | the displayed ids are a subsequence of `sortedIds`; each id matching the query appears exactly as often as in `sortedIds`, and no other id appears |
| Server.EmptySearchShowsOrder | server/index.js:57-62 | with an empty query a valid store displays its whole canonical order |
| Server.DisplayNoDups | server/index.js:62 | a valid store never displays an id twice |
| Server.StampAll | server/index.js:64-70 | each returned entry carries its id, its catalog label and its current selection membership |
| Server.DisplayedIdsResolve | server/index.js:61-65 | every displayed id resolves against the catalog |
| Server.GetItems | server/index.js:52-76 | `total` is the view length; the page holds at most `limit` entries; it is empty when `offset >= total` and otherwise holds `min(limit, total - offset)` entries; entry k is displayed id `offset + k`, stamped with its selection membership |
| Server.PagesCoverView | server/index.js:63-74 | concatenating successive windows from an offset up to `total` gives every displayed id from that offset exactly once, in order |
| Server.GetState | server/index.js:22-37 | the reply has the first 20 ids of the canonical order (all of them when fewer), unfiltered; a row is missing exactly when the catalog lacks its id; total is the catalog size; the selection is returned whole |
| Server.StateIsFirstPage | server/index.js:22-37 | on a valid store `GET /state` resolves every row and returns the same rows as the first `GET /items` page of 20 under the empty query |
| Server.ApplyReorder | server/index.js:41-45 | the new order begins with `sorted` verbatim; after it come the old ids not in `sorted`, in their old relative order, each as often as before |
| Server.EmptyReorderKeepsOrder | server/index.js:41-44 | an empty `sorted` array is truthy and leaves the order unchanged |
| Server.ReorderIdempotent | server/index.js:42-44 | merging the same `sorted` twice equals merging it once |
| Server.ReorderPinsPrefix | server/index.js:42-44 | sending a rearrangement of the order's first ids moves only those ids; the rest of the order is unchanged |
| Server.ReorderIsPermutation | server/index.js:41-45 | for a duplicate-free `sorted` drawn from a duplicate-free order, the merge keeps length and multiset |
| Server.ReorderRepeatsDuplicates | server/index.js:42-44 | a repeated id is not rejected: sending one id of a duplicate-free order twice leaves it in the order twice, and the order grows by one |
| Server.ReorderAdmitsUnknownIds | server/index.js:42-44 | an unknown id is not rejected: sending an id the order lacks puts it in front of the whole old order |
| Server.UpdateState | server/index.js:39-50 | the catalog never changes; an absent `sorted` leaves the order and an absent `selected` leaves the selection; a present `sorted` gives exactly the merge of the old order with it (`Server.ApplyReorder`); a present `selected` becomes the whole selection |
| Server.SelectionReplaceIdempotent | server/index.js:46-48 | replacing the selection twice with the same ids equals replacing it once and leaves the order alone |
| Server.UpdatePreservesValid | server/index.js:39-50 | an update whose `sorted` is duplicate-free and names only catalog ids keeps the store invariant and the order's multiset |
| Server.ReplayPreservesValid | server/index.js:39-50 | any run of such updates keeps the canonical order a permutation of the catalog ids |
| Server.CheckedReorder | server/index.js:41-45 | the validating variant, which is not in the handler: accepts exactly duplicate-free fronts drawn from the order, names the reason it rejects, on success gives exactly the store the handler's merge gives (catalog and selection untouched), and keeps a valid store valid and permuted |
| ClientApp.SelectionChange | client/src/App.tsx:15-24 | checking adds the id and unchecking removes it; no other id changes; the whole new set is sent as `selected` |
| ClientApp.ToggleTwiceRestores | client/src/App.tsx:15-22 | toggling an id one way and back restores the selection |
| ClientApp.MoveItem | client/src/App.tsx:26-38 | the buffer keeps its length and multiset; the dragged item lands at the hover index, clamped to the end as `splice` clamps; the others keep their relative order; the new buffer's ids are sent as `sorted` |
| ClientApp.MoveItemUndo | client/src/App.tsx:27-30 | dragging the item back to where it came from restores the buffer |
| ClientApp.LoadMoreItems | client/src/App.tsx:79-85 | no-op while loading or once the buffer reaches `total`; otherwise sets loading and requests offset = buffer length, limit 20, under the settled query |
| ClientApp.LoadMoreDone | client/src/App.tsx:84-91 | the old buffer is a prefix of the new one, and the reply's page follows it; a failed fetch leaves the buffer; loading is always cleared; nothing else changes |
| ClientApp.SettledQuery | client/src/App.tsx:52-64 | a settled query empties the buffer and sets loading; a non-empty query requests (0, 40, q); an empty one requests the server state |
| ClientApp.SearchLoaded | client/src/App.tsx:57-73 | a search reply becomes the buffer and its total becomes the total; a failure leaves both; loading is cleared |
| ClientApp.StateLoaded | client/src/App.tsx:62-73 | a state reply replaces the buffer, the total and the local selection; a failure only clears loading |
| ListView.ItemCount | client/src/components/VirtualizedList.tsx:87 | the row count is the buffer length plus one exactly when the buffer is shorter than `total` |
| ListView.RowAt | client/src/components/VirtualizedList.tsx:33-76 | a row index without a loaded item is the loader; a loaded row shows its item with the checkbox set exactly when its id is selected |
| ListView.OnePlaceholderRow | client/src/components/VirtualizedList.tsx:86-87 | among the exposed rows the loader is exactly the last one, and only while more data remains |
| ListView.FindIndex | client/src/components/VirtualizedList.tsx:47 | the result is the first buffer index holding the id, or -1 exactly when no index holds it |
| ListView.Hover | client/src/components/VirtualizedList.tsx:43-54 | a move is issued exactly when the hovered row is a loaded row, the dragged id is buffered, and its first index differs from the hovered index; the issued drag index is the first index holding the dragged id |
| ListView.OnHover | client/src/components/VirtualizedList.tsx:43-54 | a request is sent exactly when the hover resolves to a move; otherwise the client is unchanged; a move permutes the buffer so that the dragged id sits on the hovered row, keeps every other row in its relative order, changes nothing but the buffer, and sends the new id order |
| ListView.LoaderRowTriggers | client/src/components/VirtualizedList.tsx:110 | when the loader row is the last visible row, the load condition holds |
| ListView.OnItemsRendered | client/src/components/VirtualizedList.tsx:95-112 | at most one page request leaves, only when idle, near the end of the buffer and short of `total`; when idle and near the end one always leaves |
| ListView.OnCheck | client/src/components/VirtualizedList.tsx:77 | a checkbox change on a loaded row sets exactly that row's id membership, changes nothing but the selection, and sends the whole set |
| ListView.OnCheckTwiceRestores | client/src/components/VirtualizedList.tsx:77 | clicking a row's checkbox and then clicking it back restores the client |
| Sync.StateReply | server/index.js:22-37 | on a valid store the state reply the client receives is the first items page of 20, the catalog size and the server's selection |
| Sync.WindowExtendsPrefix | client/src/App.tsx:85-86 | appending the window at the buffer's length to a buffer that is a prefix of the view gives a longer prefix of the view |
| Sync.SearchResetMirrors | client/src/App.tsx:57-61 | after a non-empty settled query is answered, the buffer is the view's first min(40, total) ids and `total` is the view length |
| Sync.StateResetMirrors | client/src/App.tsx:62-67 | after the empty query is answered, the buffer is the order's first min(20, total) ids and the selection is the server's |
| Sync.MountLoadsState | client/src/App.tsx:8-13 | from the hooks' initial values (empty buffer, total 0, empty query and selection) the mount effect's empty query fetches the server state; once answered, the buffer mirrors the store, holds its first min(20, catalog size) ids, and takes the server's selection |
| Sync.LoadMoreMirrors | client/src/App.tsx:79-92 | a triggered load, once answered, strictly grows the buffer and keeps it a prefix of the view, no longer than `total` |
| Sync.IdsMove | client/src/App.tsx:29-33 | moving entries moves their ids the same way |
| Sync.HoverMirrors | client/src/App.tsx:26-38 | a drag in a buffer that is a prefix of the view, once delivered, keeps the store valid, the order a permutation, and the moved buffer a prefix of the new view |
| Sync.SelectionSync | client/src/App.tsx:15-24 | a checkbox change, once delivered, makes the server's selection equal the client's even when the two had diverged, and leaves the order and the prefix relation intact |
| Scenario.SeedOrder | server/index.js:13-19 | the seeded ten-item store is valid, with order [1 .. 10] |
| Scenario.HoverThree | client/src/components/VirtualizedList.tsx:47-53 | over a buffer of ids [1 .. 5], hovering id 3 onto row 0 issues move (2, 0), which gives [3, 1, 2, 4, 5] |
| Scenario.MergeThree | server/index.js:42-44 | merging [3, 1, 2, 4, 5] into order [1 .. 10] gives [3, 1, 2, 4, 5, 6, 7, 8, 9, 10] |
| Scenario.HoverThreeOn | client/src/components/VirtualizedList.tsx:43-54 | over a buffer of ids [1 .. 5], hovering id 3 onto row 0 gives buffer [3, 1, 2, 4, 5] and posts that order as `sorted` |
| Scenario.DeliverThree | server/index.js:39-50 | delivering that post to a store ordered [1 .. 10] gives order [3, 1, 2, 4, 5, 6 .. 10] |
| Scenario.FirstWindow | server/index.js:63 | a window of five from offset 0 over a view of at least five ids holds the view's first five ids |
| Scenario.DragThreeToFrontOn | client/src/App.tsx:26-38 | on any valid store ordered [1 .. 10]: load five, hover id 3 onto row 0, send the buffer; the buffer becomes [3, 1, 2, 4, 5] and the order [3, 1, 2, 4, 5, 6 .. 10] |
| Scenario.DragThreeToFront | server/index.js:39-50 | the same run on the seeded store |
| Scenario.NoFiveNoMatch | server/index.js:58 | a label without the digit 5 does not match "5" |
| Scenario.FiveMatches | server/index.js:58 | the label `Элемент 5` matches "5" |
| Scenario.FilterFive | server/index.js:57-61 | over the ten-item catalog the query "5" selects exactly id 5 |
| Scenario.SearchFive | server/index.js:57-74 | over the seeded store the query "5" displays [5] with total 1 |

## Left out

- `client/src/api.ts` is not part of this model. Its three calls become the `Request` values a transition records in `sent`.
- Express routing, CORS, JSON parsing, `app.listen`, and the "state updated" acknowledgement are not modelled. The one-million-item seed is replaced by a catalog parameter with unique ids.
- `parseInt` and `Number` coercions are not modelled. Ids are integers, and offset and limit are natural numbers, so NaN and negative offsets do not arise.
- Server.GetItems: the query defaults of `GET /items` (offset 0, limit 20, empty search) are not modelled, because the client always sends all three parameters.
- Server.GetItems: the `slice` behaviour for NaN or negative offsets and limits is not modelled, because the parameters are natural numbers.
- Text.Lower: lower-casing covers ASCII and the Cyrillic capitals U+0400–U+042F only, not full Unicode `toLowerCase`. These are the characters the labels use.
- The 500 ms debounce timer is not modelled. Only its effect is: a settled-query transition (`ClientApp.SettledQuery`).
- ClientApp.LoadMoreDone and ClientApp.SearchLoaded: every fetch is one atomic transition. A reply for a superseded query arriving after a reset is not modelled, because that is an interleaving of asynchronous completions.
- ClientApp.SelectionChange: a failed `POST /state` is not modelled. It would leave the server's selection stale, because the client neither awaits nor checks the reply.
- ClientApp.MoveItem: a failed `POST /state` has no rollback. The client and store simply diverge, and the model does not track pending writes.
- Sync.StateReply: the client is given resolved rows only, so it requires a valid store. On an invalid store `GET /state` can serialise a record with no id; `Server.GetState` models that as a missing row.
- React rendering, react-window layout (height 600, row size 45), the `resetScroll` handle, drag styling and `console.error` logging are not modelled.
- The linear cost of `find` is not modelled; lookup is a pure function.

=== FILE: client_app.dfy ===
/** The client's state and the transitions `App` performs on it: toggling a
    selection, moving a buffered item, loading the next page, and resetting
    when the settled query changes. Each network call is split into the
    transition that issues it (recorded in `sent`) and the transition that
    consumes its reply. */
module ClientApp {
  import opened Options
  import opened Seqs
  import opened Protocol

  /** First page fetched after a non-empty settled query. */
  const SearchPage: nat := 40
  /** Page fetched by every incremental load. */
  const LoadPage: nat := 20

  /** `items` is the loaded buffer; `debounced` is the settled query. */
  datatype Client = Client(
    items: seq<Entry>,
    total: nat,
    loading: bool,
    debounced: string,
    selectedIds: set<Id>)

  /** The next client state and the requests it put on the wire. */
  datatype Step = Step(next: Client, sent: seq<Request>)

  /** The state hooks' initial values. */
  function Initial(): (c: Client) {
    Client([], 0, false, "", {})
  }

  /** `handleSelectionChange`: add or remove one id locally, then send the
      whole resulting set. */
  function SelectionChange(c: Client, id: Id, isSelected: bool): (r: Step)
    ensures (id in r.next.selectedIds) == isSelected
    ensures forall x :: x != id ==> (x in r.next.selectedIds <==> x in c.selectedIds)
    ensures r.next == c.(selectedIds := r.next.selectedIds)
    ensures r.sent == [PostState(UpdateBody(None, Some(r.next.selectedIds)))]
  {
    var s := if isSelected then c.selectedIds + {id} else c.selectedIds - {id};
    Step(c.(selectedIds := s), [PostState(UpdateBody(None, Some(s)))])
  }

  /** Unchecking a selected id and checking it again restores the selection;
      so does checking an unselected id and unchecking it. */
  lemma ToggleTwiceRestores(c: Client, id: Id)
    ensures id in c.selectedIds ==>
      SelectionChange(SelectionChange(c, id, false).next, id, true).next == c
    ensures id !in c.selectedIds ==>
      SelectionChange(SelectionChange(c, id, true).next, id, false).next == c
  {
    var off := SelectionChange(SelectionChange(c, id, false).next, id, true).next;
    var on := SelectionChange(SelectionChange(c, id, true).next, id, false).next;
    if id in c.selectedIds {
      assert off.selectedIds == c.selectedIds;
    } else {
      assert on.selectedIds == c.selectedIds;
    }
  }

  /** `moveItem`: splice the item out of `dragIndex` and back in at
      `hoverIndex` (clamped to the end, as `splice` does), then send the
      whole buffer's id order as the new front of the canonical order. */
  function MoveItem(c: Client, dragIndex: nat, hoverIndex: nat): (r: Step)
    requires dragIndex < |c.items|
    ensures |r.next.items| == |c.items|
    ensures multiset(r.next.items) == multiset(c.items)
    ensures var at := Min(hoverIndex, |c.items| - 1);
      && r.next.items[at] == c.items[dragIndex]
      && Remove(r.next.items, at) == Remove(c.items, dragIndex)
    ensures r.next == c.(items := r.next.items)
    ensures r.sent == [PostState(UpdateBody(Some(Ids(r.next.items)), None))]
  {
    var moved := Move(c.items, dragIndex, Min(hoverIndex, |c.items| - 1));
    Step(c.(items := moved), [PostState(UpdateBody(Some(Ids(moved)), None))])
  }

  /** Dragging the item back to where it came from restores the buffer. */
  lemma MoveItemUndo(c: Client, dragIndex: nat, hoverIndex: nat)
    requires dragIndex < |c.items| && hoverIndex < |c.items|
    ensures MoveItem(MoveItem(c, dragIndex, hoverIndex).next, hoverIndex, dragIndex).next == c
  {
    MoveBack(c.items, dragIndex, hoverIndex);
  }

  /** `loadMoreItems`, up to the request: nothing while a fetch is pending or
      once the buffer holds `total` items; otherwise mark loading and ask for
      the next page after the buffer under the settled query. */
  function LoadMoreItems(c: Client): (r: Step)
    ensures c.loading || |c.items| >= c.total ==> r == Step(c, [])
    ensures !c.loading && |c.items| < c.total ==>
      && r.next == c.(loading := true)
      && r.sent == [FetchItems(|c.items|, LoadPage, c.debounced)]
  {
    if c.loading || |c.items| >= c.total then Step(c, [])
    else Step(c.(loading := true), [FetchItems(|c.items|, LoadPage, c.debounced)])
  }

  /** `loadMoreItems`, after the reply: append the page after the buffer (the
      reply's `total` is not read) and clear `loading`, whether or not the
      fetch failed. */
  function LoadMoreDone(c: Client, reply: Reply<ItemsResponse>): (r: Client)
    ensures c.items <= r.items
    ensures reply.Delivered? ==> r.items[|c.items|..] == reply.value.items
    ensures reply.NetError? ==> r.items == c.items
    ensures !r.loading
    ensures r == c.(items := r.items, loading := false)
  {
    match reply
    case Delivered(resp) =>
      assert (c.items + resp.items)[|c.items|..] == resp.items;
      c.(items := c.items + resp.items, loading := false)
    case NetError => c.(loading := false)
  }

  /** `fetchInitialData`, up to the request, run when the settled query
      changes: empty the buffer, mark loading, and ask for the first search
      page, or for the server state when the query is empty. */
  function SettledQuery(c: Client, q: string): (r: Step)
    ensures r.next.items == [] && r.next.loading && r.next.debounced == q
    ensures r.next.total == c.total && r.next.selectedIds == c.selectedIds
    ensures q != "" ==> r.sent == [FetchItems(0, SearchPage, q)]
    ensures q == "" ==> r.sent == [FetchState]
  {
    var reset := c.(items := [], loading := true, debounced := q);
    if q != "" then Step(reset, [FetchItems(0, SearchPage, q)])
    else Step(reset, [FetchState])
  }

  /** `fetchInitialData`, after a search reply: the page becomes the buffer
      and its `total` the new total. A failed fetch leaves the emptied buffer
      and the old total. */
  function SearchLoaded(c: Client, reply: Reply<ItemsResponse>): (r: Client)
    ensures !r.loading
    ensures reply.Delivered? ==> r.items == reply.value.items && r.total == reply.value.total
    ensures reply.NetError? ==> r.items == c.items && r.total == c.total
    ensures r.selectedIds == c.selectedIds && r.debounced == c.debounced
  {
    match reply
    case Delivered(resp) => c.(items := resp.items, total := resp.total, loading := false)
    case NetError => c.(loading := false)
  }

  /** `fetchInitialData`, after a state reply: the rows become the buffer,
      the catalog size the total, and the server's selection replaces the
      local one. */
  function StateLoaded(c: Client, reply: Reply<StateResponse>): (r: Client)
    ensures !r.loading
    ensures reply.Delivered? ==>
      && r.items == reply.value.items
      && r.total == reply.value.total
      && r.selectedIds == reply.value.selectedIds
    ensures reply.NetError? ==> r == c.(loading := false)
    ensures r.debounced == c.debounced
  {
    match reply
    case Delivered(resp) =>
      c.(items := resp.items, total := resp.total, selectedIds := resp.selectedIds, loading := false)
    case NetError => c.(loading := false)
  }
}

=== FILE: list_view.dfy ===
/** The rules of the virtualised list: how many rows it exposes, what each row
    shows, which hover reaches `moveItem`, and when scrolling reaches
    `loadMoreItems`. */
module ListView {
  import opened Options
  import opened Seqs
  import opened Protocol
  import opened ClientApp

  /** Rows before the end of the buffer at which more data is requested. */
  const LoadAhead: nat := 5

  /** Rows the list exposes: the buffer, plus one loader row while the
      server reports more. */
  function ItemCount(len: nat, total: nat): (n: nat)
    ensures len <= n <= len + 1
    ensures n == len + 1 <==> len < total
  {
    if len < total then len + 1 else len
  }

  /** What a row renders. */
  datatype RowView = Placeholder | Loaded(entry: Entry, checked: bool)

  /** `Row`: a loader when no item is buffered at the index; otherwise the item
      with its checkbox bound to the client's selection (not to the entry's
      own `isSelected` stamp). */
  function RowAt(items: seq<Entry>, selectedIds: set<Id>, index: nat): (r: RowView)
    ensures r.Placeholder? <==> index >= |items|
    ensures r.Loaded? ==> r.entry == items[index] && (r.checked <==> items[index].id in selectedIds)
  {
    if index < |items| then Loaded(items[index], items[index].id in selectedIds) else Placeholder
  }

  /** Among the exposed rows exactly one is a loader, the last, when more data
      remains, and none otherwise. */
  lemma OnePlaceholderRow(items: seq<Entry>, selectedIds: set<Id>, total: nat)
    ensures forall i :: 0 <= i < ItemCount(|items|, total) ==>
      (RowAt(items, selectedIds, i).Placeholder? <==> i == |items| && |items| < total)
    ensures |items| < total ==> RowAt(items, selectedIds, ItemCount(|items|, total) - 1).Placeholder?
  {
  }

  /** `items.findIndex(i => i.id === id)`: the first index holding the id,
      or -1. */
  function FindIndex(items: seq<Entry>, id: Id): (r: int)
    ensures -1 <= r < |items|
    ensures r >= 0 ==> items[r].id == id && forall j :: 0 <= j < r ==> items[j].id != id
    ensures r == -1 <==> forall j :: 0 <= j < |items| ==> items[j].id != id
    decreases |items|
  {
    if |items| == 0 then -1
    else if items[0].id == id then 0
    else
      var k := FindIndex(items[1..], id);
      if k == -1 then -1 else k + 1
  }

  /** The arguments a hover hands to `moveItem`. */
  datatype MoveCommand = MoveCommand(dragIndex: nat, hoverIndex: nat)

  /** The drop target's `hover`. The loader row never attaches the element
      ref, so hovering it does nothing; otherwise the dragged item is looked
      up by id and nothing happens when it is not buffered or already sits
      on the hovered row. */
  function Hover(items: seq<Entry>, draggedId: Id, hoverIndex: nat): (r: Option<MoveCommand>)
    ensures r.Some? ==>
      && r.value.hoverIndex == hoverIndex < |items|
      && r.value.dragIndex < |items|
      && items[r.value.dragIndex].id == draggedId
      && (forall j :: 0 <= j < r.value.dragIndex ==> items[j].id != draggedId)
      && r.value.dragIndex != hoverIndex
    ensures r.None? <==>
      || hoverIndex >= |items|
      || (forall j :: 0 <= j < |items| ==> items[j].id != draggedId)
      || (items[hoverIndex].id == draggedId && forall j :: 0 <= j < hoverIndex ==> items[j].id != draggedId)
  {
    if hoverIndex >= |items| then None
    else
      var dragIndex := FindIndex(items, draggedId);
      if dragIndex == -1 || dragIndex == hoverIndex then None
      else Some(MoveCommand(dragIndex, hoverIndex))
  }

  /** A hover event delivered to the client: `moveItem` when the hover
      resolves to a move, nothing otherwise. */
  function OnHover(c: Client, draggedId: Id, hoverIndex: nat): (r: Step)
    ensures r.sent == [] ==> r.next == c
    ensures r.sent != [] ==>
      && hoverIndex < |c.items|
      && |r.next.items| == |c.items|
      && r.next.items[hoverIndex].id == draggedId
      && multiset(r.next.items) == multiset(c.items)
      && r.sent == [PostState(UpdateBody(Some(Ids(r.next.items)), None))]
    ensures r.sent != [] <==> Hover(c.items, draggedId, hoverIndex).Some?
    ensures r.sent != [] ==>
      var d := FindIndex(c.items, draggedId);
      && 0 <= d < |c.items|
      && hoverIndex < |c.items|
      && Remove(r.next.items, hoverIndex) == Remove(c.items, d)
    ensures r.next == c.(items := r.next.items)
  {
    match Hover(c.items, draggedId, hoverIndex)
    case None => Step(c, [])
    case Some(m) => MoveItem(c, m.dragIndex, m.hoverIndex)
  }

  /** The `onItemsRendered` condition: the visible range reaches within
      `LoadAhead` rows of the buffer's end and the server reports more. */
  predicate NearEnd(visibleStopIndex: nat, len: nat, total: nat) {
    visibleStopIndex >= len - LoadAhead && len < total
  }

  /** Whenever the trailing loader row is visible, a load is due. */
  lemma LoaderRowTriggers(visibleStopIndex: nat, len: nat, total: nat)
    requires visibleStopIndex == ItemCount(len, total) - 1 && len < total
    ensures NearEnd(visibleStopIndex, len, total)
  {
  }

  /** `onItemsRendered` followed by the `loadMore` wrapper, which skips the call
      while `loading` is set. At most one page request leaves, only when idle
      and near the end of a buffer that is still short of `total`. */
  function OnItemsRendered(c: Client, visibleStopIndex: nat): (r: Step)
    ensures |r.sent| <= 1
    ensures r.sent == [] ==> r.next == c
    ensures r.sent != [] ==>
      && !c.loading
      && |c.items| < c.total
      && visibleStopIndex + LoadAhead >= |c.items|
      && r.sent == [FetchItems(|c.items|, LoadPage, c.debounced)]
      && r.next == c.(loading := true)
    ensures !c.loading && NearEnd(visibleStopIndex, |c.items|, c.total) ==> r.sent != []
  {
    if NearEnd(visibleStopIndex, |c.items|, c.total) && !c.loading then LoadMoreItems(c)
    else Step(c, [])
  }

  /** The checkbox of loaded row `index` changing to `checked`. */
  function OnCheck(c: Client, index: nat, checked: bool): (r: Step)
    requires index < |c.items|
    ensures (c.items[index].id in r.next.selectedIds) == checked
    ensures forall x :: x != c.items[index].id ==> (x in r.next.selectedIds <==> x in c.selectedIds)
    ensures r.sent == [PostState(UpdateBody(None, Some(r.next.selectedIds)))]
    ensures r.next == c.(selectedIds := r.next.selectedIds)
  {
    SelectionChange(c, c.items[index].id, checked)
  }

  /** Clicking a row's checkbox twice restores the client: the second click
      undoes the first, whichever state the row started in. */
  lemma OnCheckTwiceRestores(c: Client, index: nat)
    requires index < |c.items|
    ensures var checked := c.items[index].id in c.selectedIds;
      OnCheck(OnCheck(c, index, !checked).next, index, checked).next == c
  {
    ToggleTwiceRestores(c, c.items[index].id);
  }
}

=== FILE: options.dfy ===
/** Optional values and checked results used across the model. */
module Options {

  /** A value that may be absent: an optional request field, a lookup miss. */
  datatype Option<+T> = None | Some(value: T)

  /** The outcome of an operation that can reject its input. */
  datatype Result<+T, +E> = Success(value: T) | Failure(error: E)
}

=== FILE: protocol.dfy ===
/** The wire contract between the list client and the in-memory server:
    catalog items, the entries a window returns, and the three requests
    (`GET /items`, `GET /state`, `POST /state`). */
module Protocol {
  import opened Options

  /** Item identity; the server coerces every id it receives with `Number`. */
  type Id = int

  /** A catalog record. */
  datatype Item = Item(id: Id, text: string)

  /** A catalog record stamped with its selection membership at read time. */
  datatype Entry = Entry(id: Id, text: string, isSelected: bool)

  /** Body of a `GET /items` reply. */
  datatype ItemsResponse = ItemsResponse(items: seq<Entry>, total: nat)

  /** Body of a `GET /state` reply as the client consumes it. */
  datatype StateResponse = StateResponse(items: seq<Entry>, total: nat, selectedIds: set<Id>)

  /** Body of `POST /state`. Each field may be absent. The `selected` array is
      carried as its element set: the client builds it from a `Set` and the
      server turns it straight back into one, so order and repeats never matter. */
  datatype UpdateBody = UpdateBody(sorted: Option<seq<Id>>, selected: Option<set<Id>>)

  /** A request the client puts on the wire. */
  datatype Request =
    | FetchItems(offset: nat, limit: nat, search: string)
    | FetchState
    | PostState(body: UpdateBody)

  /** How an issued request comes back: with its reply, or as a transport error. */
  datatype Reply<+T> = Delivered(value: T) | NetError

  /** The ids of a run of entries, in order (`items.map(i => i.id)`). */
  function Ids(entries: seq<Entry>): (r: seq<Id>)
    ensures |r| == |entries|
    ensures forall i :: 0 <= i < |r| ==> r[i] == entries[i].id
  {
    seq(|entries|, i requires 0 <= i < |entries| => entries[i].id)
  }

  lemma IdsAppend(a: seq<Entry>, b: seq<Entry>)
    ensures Ids(a + b) == Ids(a) + Ids(b)
  {
  }
}

=== FILE: scenario.dfy ===
/** Concrete runs of the protocol on a ten-item catalog labelled the way the
    server seeds its list ("Элемент 1" ... "Элемент 10"). */
module Scenario {
  import opened Options
  import opened Seqs
  import opened Text
  import opened Protocol
  import opened Server
  import opened ClientApp
  import opened ListView
  import opened Sync

  function Catalog(): (r: seq<Item>)
    ensures CatalogIds(r) == [1, 2, 3, 4, 5, 6, 7, 8, 9, 10]
    ensures NoDups(CatalogIds(r))
  {
    [ Item(1, "Элемент 1"), Item(2, "Элемент 2"), Item(3, "Элемент 3"), Item(4, "Элемент 4"),
      Item(5, "Элемент 5"), Item(6, "Элемент 6"), Item(7, "Элемент 7"), Item(8, "Элемент 8"),
      Item(9, "Элемент 9"), Item(10, "Элемент 10") ]
  }

  /** The seeded store: order [1 .. 10], nothing selected. */
  lemma SeedOrder()
    ensures Valid(Seed(Catalog()))
    ensures Seed(Catalog()).sortedIds == [1, 2, 3, 4, 5, 6, 7, 8, 9, 10]
  {
  }

  /** Moving the third of five elements to the front. */
  lemma MoveThirdToFront(ids: seq<Id>)
    requires |ids| == 5
    ensures var m := Move(ids, 2, 0);
      m[0] == ids[2] && m[1] == ids[0] && m[2] == ids[1] && m[3] == ids[3] && m[4] == ids[4]
  {
    var m := Move(ids, 2, 0);
    var r := Remove(m, 0);
    var q := Remove(ids, 2);
    assert r == q;
    assert r[0] == m[1] && r[1] == m[2] && r[2] == m[3] && r[3] == m[4];
    assert q[0] == ids[0] && q[1] == ids[1] && q[2] == ids[3] && q[3] == ids[4];
  }

  lemma ThreeFirst(ids: seq<Id>, m: seq<Id>)
    requires ids == [1, 2, 3, 4, 5]
    requires |m| == 5 && m[0] == ids[2] && m[1] == ids[0] && m[2] == ids[1] && m[3] == ids[3] && m[4] == ids[4]
    ensures m == [3, 1, 2, 4, 5]
  {
  }

  /** Over a buffer holding ids 1 to 5, hovering id 3 on row 0 moves it from
      row 2 to the front. */
  lemma HoverThree(items: seq<Entry>)
    requires Ids(items) == [1, 2, 3, 4, 5]
    ensures Hover(items, 3, 0) == Some(MoveCommand(2, 0))
    ensures Ids(Move(items, 2, 0)) == [3, 1, 2, 4, 5]
  {
    assert items[0].id == 1 && items[1].id == 2 && items[2].id == 3;
    assert items[3].id == 4 && items[4].id == 5;
    assert FindIndex(items, 3) == 2;
    var ids := Ids(items);
    IdsMove(items, 2, 0);
    MoveThirdToFront(ids);
    ThreeFirst(ids, Move(ids, 2, 0));
  }

  lemma SplitTen(order: seq<Id>)
    requires order == [1, 2, 3, 4, 5, 6, 7, 8, 9, 10]
    ensures order == [1, 2, 3, 4, 5] + [6, 7, 8, 9, 10]
  {
  }

  lemma JoinTen(moved: seq<Id>, back: seq<Id>)
    requires moved == [3, 1, 2, 4, 5] && back == [6, 7, 8, 9, 10]
    ensures moved + back == [3, 1, 2, 4, 5, 6, 7, 8, 9, 10]
  {
  }

  lemma SameFive(a: seq<Id>, b: seq<Id>)
    requires a == [1, 2, 3, 4, 5] && b == [3, 1, 2, 4, 5]
    ensures Elems(a) == Elems(b)
  {
    assert forall x :: x in a <==> x in b;
  }

  lemma ApartFive(a: seq<Id>, b: seq<Id>)
    requires a == [1, 2, 3, 4, 5] && b == [6, 7, 8, 9, 10]
    ensures Elems(b) !! Elems(a)
  {
    assert forall x :: x in b ==> x !in a;
  }

  /** The server merging [3, 1, 2, 4, 5] into order [1 .. 10]: the moved
      window first, ids 6 to 10 after it as they were. */
  lemma MergeThree(order: seq<Id>, moved: seq<Id>)
    requires order == [1, 2, 3, 4, 5, 6, 7, 8, 9, 10] && moved == [3, 1, 2, 4, 5]
    ensures ApplyReorder(order, moved) == [3, 1, 2, 4, 5, 6, 7, 8, 9, 10]
  {
    var front: seq<Id> := [1, 2, 3, 4, 5];
    var back: seq<Id> := [6, 7, 8, 9, 10];
    SplitTen(order);
    SameFive(front, moved);
    ApartFive(front, back);
    ReorderPinsPrefix(order, front, back, moved);
    JoinTen(moved, back);
  }

  /** The first window of five ids lists the view's first five ids. */
  lemma FirstWindow(st: Store, q: string)
    requires |DisplayIds(st, q)| >= 5
    ensures Ids(GetItems(st, 0, 5, q).items) == DisplayIds(st, q)[..5]
  {
    WindowIds(st, 0, 5, q);
  }

  /** The first five of [1 .. 10]. */
  lemma FirstFiveOfTen(d: seq<Id>)
    requires d == [1, 2, 3, 4, 5, 6, 7, 8, 9, 10]
    ensures |d| >= 5 && d[..5] == [1, 2, 3, 4, 5]
  {
  }

  /** The client half of the drag: over a buffer holding ids 1 to 5, hovering
      id 3 on row 0 gives buffer [3, 1, 2, 4, 5] and posts that order. */
  lemma HoverThreeOn(items: seq<Entry>)
    requires Ids(items) == [1, 2, 3, 4, 5]
    ensures var s := OnHover(Client(items, 10, false, "", {}), 3, 0);
      && Ids(s.next.items) == [3, 1, 2, 4, 5]
      && s.sent == [PostState(UpdateBody(Some([3, 1, 2, 4, 5]), None))]
  {
    var c := Client(items, 10, false, "", {});
    HoverThree(items);
    var s := OnHover(c, 3, 0);
    assert s == MoveItem(c, 2, 0);
    assert s.next.items == Move(items, 2, 0);
  }

  /** The server half of the drag: delivering the posted order [3, 1, 2, 4, 5]
      to a store ordered [1 .. 10]. */
  lemma DeliverThree(st: Store)
    requires st.sortedIds == [1, 2, 3, 4, 5, 6, 7, 8, 9, 10]
    ensures Deliver(st, [PostState(UpdateBody(Some([3, 1, 2, 4, 5]), None))]).sortedIds
      == [3, 1, 2, 4, 5, 6, 7, 8, 9, 10]
  {
    var moved: seq<Id> := [3, 1, 2, 4, 5];
    var body := UpdateBody(Some(moved), None);
    MergeThree(st.sortedIds, moved);
    var st2 := UpdateState(st, body);
    assert Deliver(st2, []) == st2;
    assert Deliver(st, [PostState(body)]) == st2;
  }

  /** On any valid store ordered [1 .. 10]: a buffer loaded with the first five
      ids, id 3 hovered over row 0, gives buffer [3, 1, 2, 4, 5], and the
      merge the client sends pins the whole buffer ahead of the rest. */
  lemma DragThreeToFrontOn(st: Store)
    requires Valid(st) && st.sortedIds == [1, 2, 3, 4, 5, 6, 7, 8, 9, 10]
    ensures var c := Client(GetItems(st, 0, 5, "").items, 10, false, "", {});
      var s := OnHover(c, 3, 0);
      && Ids(c.items) == [1, 2, 3, 4, 5]
      && Ids(s.next.items) == [3, 1, 2, 4, 5]
      && s.sent == [PostState(UpdateBody(Some([3, 1, 2, 4, 5]), None))]
      && Deliver(st, s.sent).sortedIds == [3, 1, 2, 4, 5, 6, 7, 8, 9, 10]
  {
    EmptySearchShowsOrder(st);
    FirstFiveOfTen(DisplayIds(st, ""));
    FirstWindow(st, "");
    HoverThreeOn(GetItems(st, 0, 5, "").items);
    DeliverThree(st);
  }

  /** The same run on the seeded ten-item store. */
  lemma DragThreeToFront()
    ensures var st := Seed(Catalog());
      var c := Client(GetItems(st, 0, 5, "").items, 10, false, "", {});
      var s := OnHover(c, 3, 0);
      && Ids(s.next.items) == [3, 1, 2, 4, 5]
      && Deliver(st, s.sent).sortedIds == [3, 1, 2, 4, 5, 6, 7, 8, 9, 10]
  {
    SeedOrder();
    DragThreeToFrontOn(Seed(Catalog()));
  }

  /** A label without the digit 5 never matches the query "5". */
  lemma NoFiveNoMatch(text: string)
    requires forall i :: 0 <= i < |text| ==> text[i] != '5'
    ensures !Matches(text, "5")
  {
    assert Lower("5") == "5";
    var t := Lower(text);
    assert forall k :: 0 <= k < |t| ==> t[k] != '5';
    assert forall k :: OccursAt(t, "5", k) ==> t[k..k + 1] == "5" && t[k] == '5';
    ContainsIffOccurs(t, "5");
  }

  /** The label "Элемент 5" matches "5". */
  lemma FiveMatches(text: string)
    requires text == "Элемент 5"
    ensures Matches(text, "5")
  {
    var t := Lower(text);
    assert Lower("5") == "5";
    assert t[8] == '5';
    assert t[8..9] == "5";
    assert OccursAt(t, "5", 8);
    ContainsIffOccurs(t, "5");
  }

  /** The ids whose labels match "5": only id 5. */
  lemma FilterFive()
    ensures FilteredIds(Catalog(), "5") == {5}
  {
    var cat := Catalog();
    FiveMatches(cat[4].text);
    forall i | 0 <= i < |cat| && i != 4 ensures !Matches(cat[i].text, "5") {
      NoFiveNoMatch(cat[i].text);
    }
    assert cat[4].id == 5;
  }

  /** Query "5" over the seeded store: the view is [5] and its total is 1. */
  lemma SearchFive()
    ensures DisplayIds(Seed(Catalog()), "5") == [5]
    ensures GetItems(Seed(Catalog()), 0, SearchPage, "5").total == 1
  {
    var st := Seed(Catalog());
    FilterFive();
    assert CatalogIds(Catalog())[4] == 5;
    assert 5 in Elems(CatalogIds(st.catalog));
    KeepSingle(st.sortedIds, 5);
  }
}

=== FILE: seqs.dfy ===
/** Sequence vocabulary shared by the server store and the client buffer:
    duplicate-freedom, order-preserving filters, subsequences and the
    single-element move a drag gesture performs. */
module Seqs {

  function Min(a: int, b: int): (m: int) {
    if a <= b then a else b
  }

  /** No element occurs twice. */
  predicate NoDups<T(==)>(s: seq<T>) {
    forall i, j :: 0 <= i < j < |s| ==> s[i] != s[j]
  }

  /** The set of elements of `s`. */
  function Elems<T>(s: seq<T>): (r: set<T>) {
    set x | x in s
  }

  /** `a` is obtained from `b` by deleting elements, keeping the order of the rest. */
  predicate IsSubsequence<T(==)>(a: seq<T>, b: seq<T>)
    decreases |b|
  {
    |a| == 0 ||
    (|b| > 0 && if a[0] == b[0] then IsSubsequence(a[1..], b[1..]) else IsSubsequence(a, b[1..]))
  }

  /** The elements of `s` that belong to `S`, in their order in `s`
      (JavaScript `s.filter(x => S.has(x))`). */
  function Keep<T(==,!new)>(s: seq<T>, S: set<T>): (r: seq<T>)
    ensures forall x :: multiset(r)[x] == if x in S then multiset(s)[x] else 0
    ensures forall x :: x in r <==> x in s && x in S
    ensures IsSubsequence(r, s)
    decreases |s|
  {
    if |s| == 0 then []
    else
      assert s == [s[0]] + s[1..];
      var rest := Keep(s[1..], S);
      if s[0] in S then
        assert ([s[0]] + rest)[1..] == rest;
        [s[0]] + rest
      else
        rest
  }

  /** The elements of `s` that do not belong to `S`, in their order in `s`
      (JavaScript `s.filter(x => !S.includes(x))`). */
  function Drop<T(==,!new)>(s: seq<T>, S: set<T>): (r: seq<T>)
    ensures forall x :: multiset(r)[x] == if x in S then 0 else multiset(s)[x]
    ensures forall x :: x in r <==> x in s && x !in S
    ensures IsSubsequence(r, s)
    decreases |s|
  {
    if |s| == 0 then []
    else
      assert s == [s[0]] + s[1..];
      var rest := Drop(s[1..], S);
      if s[0] !in S then
        assert ([s[0]] + rest)[1..] == rest;
        [s[0]] + rest
      else
        rest
  }

  lemma {:induction false} KeepAppend<T(!new)>(a: seq<T>, b: seq<T>, S: set<T>)
    ensures Keep(a + b, S) == Keep(a, S) + Keep(b, S)
    decreases |a|
  {
    if |a| > 0 {
      assert (a + b)[1..] == a[1..] + b;
      KeepAppend(a[1..], b, S);
    } else {
      assert a + b == b;
    }
  }

  lemma {:induction false} DropAppend<T(!new)>(a: seq<T>, b: seq<T>, S: set<T>)
    ensures Drop(a + b, S) == Drop(a, S) + Drop(b, S)
    decreases |a|
  {
    if |a| > 0 {
      assert (a + b)[1..] == a[1..] + b;
      DropAppend(a[1..], b, S);
    } else {
      assert a + b == b;
    }
  }

  /** Keeping a superset of the elements changes nothing. */
  lemma {:induction false} KeepEverything<T(!new)>(s: seq<T>, S: set<T>)
    requires Elems(s) <= S
    ensures Keep(s, S) == s
    decreases |s|
  {
    if |s| > 0 {
      assert s[0] in Elems(s);
      assert Elems(s[1..]) <= Elems(s);
      KeepEverything(s[1..], S);
      assert s == [s[0]] + s[1..];
    }
  }

  /** Dropping elements that do not occur changes nothing. */
  lemma {:induction false} DropNothing<T(!new)>(s: seq<T>, S: set<T>)
    requires Elems(s) !! S
    ensures Drop(s, S) == s
    decreases |s|
  {
    if |s| > 0 {
      assert s[0] in Elems(s);
      assert Elems(s[1..]) <= Elems(s);
      DropNothing(s[1..], S);
      assert s == [s[0]] + s[1..];
    }
  }

  /** Dropping a sequence's own elements leaves nothing. */
  lemma DropOwn<T(!new)>(s: seq<T>)
    ensures Drop(s, Elems(s)) == []
  {
    var d := Drop(s, Elems(s));
    forall x ensures multiset(d)[x] == 0 {
      if x in s {
        assert x in Elems(s);
      }
    }
    assert multiset(d) == multiset{};
    assert |d| == |multiset(d)|;
  }

  lemma ConsNoDups<T>(x: T, s: seq<T>)
    requires x !in s && NoDups(s)
    ensures NoDups([x] + s)
  {
    forall i, j | 0 <= i < j < |[x] + s|
      ensures ([x] + s)[i] != ([x] + s)[j]
    {
      if i == 0 {
        assert ([x] + s)[j] == s[j - 1];
      }
    }
  }

  lemma {:induction false} KeepNoDups<T(!new)>(s: seq<T>, S: set<T>)
    requires NoDups(s)
    ensures NoDups(Keep(s, S))
    decreases |s|
  {
    if |s| > 0 {
      assert NoDups(s[1..]);
      KeepNoDups(s[1..], S);
      assert s[0] !in s[1..] by {
        forall k | 0 <= k < |s[1..]| ensures s[1..][k] != s[0] {
          assert s[1..][k] == s[k + 1];
        }
      }
      if s[0] in S {
        ConsNoDups(s[0], Keep(s[1..], S));
      }
    }
  }

  lemma {:induction false} DropNoDups<T(!new)>(s: seq<T>, S: set<T>)
    requires NoDups(s)
    ensures NoDups(Drop(s, S))
    decreases |s|
  {
    if |s| > 0 {
      assert NoDups(s[1..]);
      DropNoDups(s[1..], S);
      assert s[0] !in s[1..] by {
        forall k | 0 <= k < |s[1..]| ensures s[1..][k] != s[0] {
          assert s[1..][k] == s[k + 1];
        }
      }
      if s[0] !in S {
        ConsNoDups(s[0], Drop(s[1..], S));
      }
    }
  }

  lemma AppendNoDups<T>(a: seq<T>, b: seq<T>)
    requires NoDups(a) && NoDups(b) && Elems(a) !! Elems(b)
    ensures NoDups(a + b)
  {
    forall i, j | 0 <= i < j < |a + b|
      ensures (a + b)[i] != (a + b)[j]
    {
      if i < |a| && |a| <= j {
        assert (a + b)[i] in Elems(a);
        assert (a + b)[j] == b[j - |a|];
        assert (a + b)[j] in Elems(b);
      }
    }
  }

  /** In a duplicate-free sequence every member occurs exactly once. */
  lemma {:induction false} NoDupsCount<T>(s: seq<T>, x: T)
    requires NoDups(s)
    ensures multiset(s)[x] == if x in s then 1 else 0
    decreases |s|
  {
    if |s| > 0 {
      assert s == [s[0]] + s[1..];
      assert NoDups(s[1..]);
      NoDupsCount(s[1..], x);
      if x == s[0] {
        assert x !in s[1..] by {
          forall k | 0 <= k < |s[1..]| ensures s[1..][k] != s[0] {
            assert s[1..][k] == s[k + 1];
          }
        }
      }
    }
  }

  /** Keeping one member of a duplicate-free sequence yields just that member. */
  lemma KeepSingle<T(!new)>(s: seq<T>, x: T)
    requires NoDups(s) && x in s
    ensures Keep(s, {x}) == [x]
  {
    var k := Keep(s, {x});
    NoDupsCount(s, x);
    assert multiset(k) == multiset{x} by {
      forall y ensures multiset(k)[y] == multiset{x}[y] {
      }
    }
    assert |k| == |multiset(k)| == 1;
    assert k[0] in multiset(k);
  }

  /** A rearrangement of a duplicate-free sequence is duplicate-free. */
  lemma PermutationNoDups<T>(a: seq<T>, b: seq<T>)
    requires multiset(a) == multiset(b) && NoDups(b)
    ensures NoDups(a)
  {
    forall i, j | 0 <= i < j < |a|
      ensures a[i] != a[j]
    {
      if a[i] == a[j] {
        assert a == a[..j] + a[j..];
        assert a[i] in a[..j];
        assert a[j] in a[j..];
        assert multiset(a)[a[i]] == multiset(a[..j])[a[i]] + multiset(a[j..])[a[i]];
        NoDupsCount(b, a[i]);
        assert false;
      }
    }
  }

  /** A duplicate-free sequence has as many elements as its element set. */
  lemma {:induction false} NoDupsCard<T>(s: seq<T>)
    requires NoDups(s)
    ensures |Elems(s)| == |s|
    decreases |s|
  {
    if |s| > 0 {
      assert NoDups(s[1..]);
      NoDupsCard(s[1..]);
      assert s[0] !in s[1..] by {
        forall k | 0 <= k < |s[1..]| ensures s[1..][k] != s[0] {
          assert s[1..][k] == s[k + 1];
        }
      }
      assert s == [s[0]] + s[1..];
      assert Elems(s) == {s[0]} + Elems(s[1..]);
    }
  }

  /** Delete the element at index `i` (JavaScript `splice(i, 1)`). */
  function Remove<T>(s: seq<T>, i: nat): (r: seq<T>)
    requires i < |s|
  {
    s[..i] + s[i + 1..]
  }

  /** Insert `x` before index `i` (JavaScript `splice(i, 0, x)`). */
  function Insert<T>(s: seq<T>, i: nat, x: T): (r: seq<T>)
    requires i <= |s|
  {
    s[..i] + [x] + s[i..]
  }

  /** Take the element at `from` out and put it back so that it ends at `to`. */
  function Move<T>(s: seq<T>, from: nat, to: nat): (r: seq<T>)
    requires from < |s| && to < |s|
    ensures |r| == |s|
    ensures multiset(r) == multiset(s)
    ensures r[to] == s[from]
    ensures Remove(r, to) == Remove(s, from)
  {
    var rest := Remove(s, from);
    assert s == s[..from] + [s[from]] + s[from + 1..];
    assert rest == rest[..to] + rest[to..];
    var r := Insert(rest, to, s[from]);
    assert r[..to] == rest[..to] && r[to + 1..] == rest[to..];
    assert multiset(s) == multiset(rest) + multiset{s[from]} by {
      assert multiset(s) == multiset(s[..from]) + multiset{s[from]} + multiset(s[from + 1..]);
    }
    assert multiset(r) == multiset(rest) + multiset{s[from]} by {
      assert multiset(r) == multiset(rest[..to]) + multiset{s[from]} + multiset(rest[to..]);
    }
    r
  }

  /** Putting an element back where it came from undoes its removal. */
  lemma InsertRemove<T>(s: seq<T>, i: nat)
    requires i < |s|
    ensures Insert(Remove(s, i), i, s[i]) == s
  {
    var rest := Remove(s, i);
    assert rest[..i] == s[..i] && rest[i..] == s[i + 1..];
  }

  /** Dragging an element back undoes the drag. */
  lemma MoveBack<T>(s: seq<T>, from: nat, to: nat)
    requires from < |s| && to < |s|
    ensures Move(Move(s, from, to), to, from) == s
  {
    var r := Move(s, from, to);
    InsertRemove(s, from);
    assert Move(r, to, from) == Insert(Remove(r, to), from, r[to]);
  }
}

=== FILE: server.dfy ===
/** The in-memory store behind `/api`: an immutable catalog, the canonical id
    order `sortedIds`, the selection set, and the three handlers that read
    and write them. */
module Server {
  import opened Options
  import opened Seqs
  import opened Text
  import opened Protocol

  /** Rows returned by `GET /state`. */
  const StatePage: nat := 20

  datatype Store = Store(catalog: seq<Item>, sortedIds: seq<Id>, selectedIds: set<Id>)

  /** The catalog's ids in catalog order (`largeList.map(item => item.id)`). */
  function CatalogIds(catalog: seq<Item>): (r: seq<Id>)
    ensures |r| == |catalog|
  {
    seq(|catalog|, i requires 0 <= i < |catalog| => catalog[i].id)
  }

  /** Catalog ids are unique, and the canonical order holds every catalog id
      exactly once. */
  predicate Valid(st: Store) {
    && NoDups(CatalogIds(st.catalog))
    && NoDups(st.sortedIds)
    && Elems(st.sortedIds) == Elems(CatalogIds(st.catalog))
  }

  /** The store at start-up: catalog order as canonical order, nothing selected. */
  function Seed(catalog: seq<Item>): (st: Store)
    requires NoDups(CatalogIds(catalog))
    ensures Valid(st)
    ensures st.catalog == catalog && st.selectedIds == {}
    ensures st.sortedIds == CatalogIds(catalog)
  {
    Store(catalog, CatalogIds(catalog), {})
  }

  /** In a valid store the canonical order is as long as the catalog. */
  lemma ValidOrderLength(st: Store)
    requires Valid(st)
    ensures |st.sortedIds| == |st.catalog|
  {
    NoDupsCard(st.sortedIds);
    NoDupsCard(CatalogIds(st.catalog));
  }

  // ---------------------------------------------------------------------
  // Catalog lookup (`largeList.find(i => i.id === id)`)
  // ---------------------------------------------------------------------

  /** The first catalog record with the given id, if any. */
  function Lookup(catalog: seq<Item>, id: Id): (r: Option<Item>)
    ensures r.Some? ==> r.value in catalog && r.value.id == id
    ensures r.None? <==> forall i :: 0 <= i < |catalog| ==> catalog[i].id != id
    ensures r.Some? ==>
      exists i :: 0 <= i < |catalog| && catalog[i] == r.value && forall j :: 0 <= j < i ==> catalog[j].id != id
    decreases |catalog|
  {
    if |catalog| == 0 then None
    else if catalog[0].id == id then Some(catalog[0])
    else
      var r := Lookup(catalog[1..], id);
      if r.Some? then
        var i :| 0 <= i < |catalog[1..]| && catalog[1..][i] == r.value
          && forall j :: 0 <= j < i ==> catalog[1..][j].id != id;
        assert catalog[i + 1] == r.value;
        r
      else r
  }

  /** With unique ids the lookup finds the one record that carries the id. */
  lemma {:induction false} LookupUnique(catalog: seq<Item>, i: nat)
    requires NoDups(CatalogIds(catalog)) && i < |catalog|
    ensures Lookup(catalog, catalog[i].id) == Some(catalog[i])
    decreases |catalog|
  {
    if i > 0 {
      assert CatalogIds(catalog)[0] != CatalogIds(catalog)[i];
      assert CatalogIds(catalog[1..]) == CatalogIds(catalog)[1..];
      LookupUnique(catalog[1..], i - 1);
    }
  }

  // ---------------------------------------------------------------------
  // GET /items: filter, order, window, stamp
  // ---------------------------------------------------------------------

  /** Ids of the catalog records whose label contains the query, ignoring case
      (`filteredIds`). An empty query takes the whole catalog. */
  function FilteredIds(catalog: seq<Item>, search: string): (r: set<Id>)
    ensures forall x :: x in r <==>
      exists i :: 0 <= i < |catalog| && catalog[i].id == x && Matches(catalog[i].text, search)
  {
    if search == "" then
      assert forall i :: 0 <= i < |catalog| ==> Matches(catalog[i].text, search) by {
        forall i | 0 <= i < |catalog| ensures Matches(catalog[i].text, search) {
          EmptySearchMatches(catalog[i].text);
        }
      }
      assert forall x :: x in Elems(CatalogIds(catalog)) <==>
        exists i :: 0 <= i < |catalog| && catalog[i].id == x by {
        forall x ensures x in Elems(CatalogIds(catalog)) <==>
          exists i :: 0 <= i < |catalog| && catalog[i].id == x {
          if x in Elems(CatalogIds(catalog)) {
            var i :| 0 <= i < |catalog| && CatalogIds(catalog)[i] == x;
            assert catalog[i].id == x;
          }
          if exists i :: 0 <= i < |catalog| && catalog[i].id == x {
            var i :| 0 <= i < |catalog| && catalog[i].id == x;
            assert CatalogIds(catalog)[i] == x;
          }
        }
      }
      Elems(CatalogIds(catalog))
    else
      set i | 0 <= i < |catalog| && Matches(catalog[i].text, search) :: catalog[i].id
  }

  /** The canonical order restricted to the matching ids (`displayIds`). */
  function DisplayIds(st: Store, search: string): (r: seq<Id>)
    ensures IsSubsequence(r, st.sortedIds)
    ensures forall x :: multiset(r)[x] == (if x in FilteredIds(st.catalog, search) then multiset(st.sortedIds)[x] else 0)
    ensures forall x :: x in r <==>
      && x in st.sortedIds
      && exists i :: 0 <= i < |st.catalog| && st.catalog[i].id == x && Matches(st.catalog[i].text, search)
  {
    Keep(st.sortedIds, FilteredIds(st.catalog, search))
  }

  /** With an empty query a valid store shows its whole canonical order. */
  lemma EmptySearchShowsOrder(st: Store)
    requires Valid(st)
    ensures DisplayIds(st, "") == st.sortedIds
  {
    KeepEverything(st.sortedIds, FilteredIds(st.catalog, ""));
  }

  /** A valid store shows every matching id once. */
  lemma DisplayNoDups(st: Store, search: string)
    requires Valid(st)
    ensures NoDups(DisplayIds(st, search))
  {
    KeepNoDups(st.sortedIds, FilteredIds(st.catalog, search));
  }

  /** Resolve each id against the catalog and stamp it with its current
      selection state (`{...item, isSelected: selectedIds.has(id)}`). */
  function StampAll(st: Store, ids: seq<Id>): (r: seq<Entry>)
    requires forall x :: x in ids ==> Lookup(st.catalog, x).Some?
    ensures |r| == |ids|
    ensures forall k :: 0 <= k < |r| ==>
      && r[k].id == ids[k]
      && r[k].isSelected == (ids[k] in st.selectedIds)
      && Lookup(st.catalog, ids[k]) == Some(Item(ids[k], r[k].text))
  {
    seq(|ids|, k requires 0 <= k < |ids| =>
      Entry(ids[k], Lookup(st.catalog, ids[k]).value.text, ids[k] in st.selectedIds))
  }

  /** Every displayed id is a catalog id. */
  lemma DisplayedIdsResolve(st: Store, search: string)
    ensures forall x :: x in DisplayIds(st, search) ==> Lookup(st.catalog, x).Some?
  {
    forall x | x in DisplayIds(st, search) ensures Lookup(st.catalog, x).Some? {
      var i :| 0 <= i < |st.catalog| && st.catalog[i].id == x && Matches(st.catalog[i].text, search);
    }
  }

  /** `GET /items?offset&limit&search`: the slice `[offset, offset + limit)` of
      the displayed ids, each resolved and stamped, and the number of
      displayed ids. */
  function GetItems(st: Store, offset: nat, limit: nat, search: string): (r: ItemsResponse)
    ensures r.total == |DisplayIds(st, search)|
    ensures |r.items| <= limit
    ensures offset >= r.total ==> r.items == []
    ensures offset < r.total ==> |r.items| == Min(limit, r.total - offset)
    ensures forall k :: 0 <= k < |r.items| ==>
      && r.items[k].id == DisplayIds(st, search)[offset + k]
      && r.items[k].isSelected == (r.items[k].id in st.selectedIds)
      && Lookup(st.catalog, r.items[k].id) == Some(Item(r.items[k].id, r.items[k].text))
  {
    var display := DisplayIds(st, search);
    var page := display[Min(offset, |display|)..Min(offset + limit, |display|)];
    DisplayedIdsResolve(st, search);
    ItemsResponse(StampAll(st, page), |display|)
  }

  /** The ids of a window are the displayed ids from `offset`, cut at the
      limit and at the end of the view. */
  lemma WindowIds(st: Store, offset: nat, limit: nat, search: string)
    ensures var d := DisplayIds(st, search);
      Ids(GetItems(st, offset, limit, search).items) == d[Min(offset, |d|)..Min(offset + limit, |d|)]
  {
  }

  /** Successive windows from `offset` on, `limit` at a time, until the
      reported total is reached: what a client paging through the view reads. */
  function Pages(st: Store, search: string, offset: nat, limit: nat): (r: seq<Entry>)
    requires limit > 0
    decreases |DisplayIds(st, search)| - offset
  {
    var w := GetItems(st, offset, limit, search);
    if offset >= w.total then [] else w.items + Pages(st, search, offset + limit, limit)
  }

  /** A window followed by the rest of the view from the window's end is
      the view from the window's start. */
  lemma JoinWindows(w: seq<Entry>, rest: seq<Entry>, d: seq<Id>, lo: nat, hi: nat)
    requires lo <= hi <= |d|
    requires Ids(w) == d[lo..hi] && Ids(rest) == d[hi..]
    ensures Ids(w + rest) == d[lo..]
  {
    IdsAppend(w, rest);
    assert d[lo..] == d[lo..hi] + d[hi..];
  }

  /** One step of paging: a window, then the pages after it. */
  lemma PagesStep(st: Store, search: string, offset: nat, limit: nat)
    requires limit > 0 && offset < |DisplayIds(st, search)|
    ensures Pages(st, search, offset, limit)
      == GetItems(st, offset, limit, search).items + Pages(st, search, offset + limit, limit)
  {
  }

  /** Paging through the view yields every displayed id once, in order,
      with no gap and no repeat. */
  lemma {:induction false} PagesCoverView(st: Store, search: string, offset: nat, limit: nat)
    requires limit > 0 && offset <= |DisplayIds(st, search)|
    ensures Ids(Pages(st, search, offset, limit)) == DisplayIds(st, search)[offset..]
    decreases |DisplayIds(st, search)| - offset
  {
    var d := DisplayIds(st, search);
    if offset < |d| {
      var w := GetItems(st, offset, limit, search).items;
      var hi := Min(offset + limit, |d|);
      var rest := Pages(st, search, offset + limit, limit);
      PagesStep(st, search, offset, limit);
      if offset + limit <= |d| {
        PagesCoverView(st, search, offset + limit, limit);
        assert Ids(rest) == d[hi..];
      } else {
        assert rest == [];
        assert Ids(rest) == d[hi..];
      }
      WindowIds(st, offset, limit, search);
      assert Min(offset, |d|) == offset;
      assert Ids(w) == d[offset..hi];
      JoinWindows(w, rest, d, offset, hi);
      assert Pages(st, search, offset, limit) == w + rest;
    } else {
      assert Pages(st, search, offset, limit) == [];
    }
  }

  // ---------------------------------------------------------------------
  // GET /state
  // ---------------------------------------------------------------------

  /** A `GET /state` reply. A row is absent when the order names an id the
      catalog lacks; the handler then serialises an object with no id. */
  datatype StateView = StateView(rows: seq<Option<Entry>>, total: nat, selectedIds: set<Id>)

  function StampRow(st: Store, id: Id): (r: Option<Entry>) {
    match Lookup(st.catalog, id)
    case Some(it) => Some(Entry(id, it.text, id in st.selectedIds))
    case None => None
  }

  /** `GET /state`: the first rows of the canonical order (no filter, no
      catalog check), the catalog size and the whole selection. */
  function GetState(st: Store): (v: StateView)
    ensures |v.rows| == Min(StatePage, |st.sortedIds|)
    ensures forall k :: 0 <= k < |v.rows| ==>
      && (v.rows[k].None? <==> forall i :: 0 <= i < |st.catalog| ==> st.catalog[i].id != st.sortedIds[k])
      && (v.rows[k].Some? ==>
            && v.rows[k].value.id == st.sortedIds[k]
            && v.rows[k].value.isSelected == (st.sortedIds[k] in st.selectedIds)
            && Lookup(st.catalog, st.sortedIds[k]) == Some(Item(st.sortedIds[k], v.rows[k].value.text)))
    ensures v.total == |st.catalog|
    ensures v.selectedIds == st.selectedIds
  {
    var ids := st.sortedIds[..Min(StatePage, |st.sortedIds|)];
    StateView(seq(|ids|, k requires 0 <= k < |ids| => StampRow(st, ids[k])), |st.catalog|, st.selectedIds)
  }

  /** On a valid store `GET /state` resolves every row and agrees with the
      first `GET /items` page under the empty query. */
  lemma StateIsFirstPage(st: Store)
    requires Valid(st)
    ensures var v := GetState(st); var w := GetItems(st, 0, StatePage, "");
      && |v.rows| == |w.items|
      && (forall k :: 0 <= k < |v.rows| ==> v.rows[k] == Some(w.items[k]))
      && v.total == w.total
  {
    EmptySearchShowsOrder(st);
    ValidOrderLength(st);
    var v := GetState(st);
    var w := GetItems(st, 0, StatePage, "");
    forall k | 0 <= k < |v.rows| ensures v.rows[k] == Some(w.items[k]) {
      assert st.sortedIds[k] in Elems(CatalogIds(st.catalog));
      var i :| 0 <= i < |st.catalog| && CatalogIds(st.catalog)[i] == st.sortedIds[k];
      assert st.catalog[i].id == st.sortedIds[k];
    }
  }

  // ---------------------------------------------------------------------
  // POST /state
  // ---------------------------------------------------------------------

  /** The reorder merge: the supplied ids, verbatim, then every id of the old
      order they do not mention, in its old relative order. Nothing is
      checked: repeated or unknown ids pass straight through. */
  function ApplyReorder(order: seq<Id>, sorted: seq<Id>): (r: seq<Id>)
    ensures sorted <= r
    ensures IsSubsequence(r[|sorted|..], order)
    ensures forall x :: multiset(r[|sorted|..])[x] == if x in sorted then 0 else multiset(order)[x]
  {
    var rest := Drop(order, Elems(sorted));
    assert (sorted + rest)[|sorted|..] == rest;
    sorted + rest
  }

  /** An empty `sorted` array is still present (arrays are truthy) and leaves
      the order as it was. */
  lemma EmptyReorderKeepsOrder(order: seq<Id>)
    ensures ApplyReorder(order, []) == order
  {
    DropNothing(order, Elems([]));
  }

  /** Merging the same front twice is merging it once. */
  lemma ReorderIdempotent(order: seq<Id>, sorted: seq<Id>)
    ensures ApplyReorder(ApplyReorder(order, sorted), sorted) == ApplyReorder(order, sorted)
  {
    var S := Elems(sorted);
    var rest := Drop(order, S);
    assert ApplyReorder(order, sorted) == sorted + rest;
    DropAppend(sorted, rest, S);
    DropNothing(rest, S);
    DropOwn(sorted);
    assert Drop(sorted + rest, S) == rest;
  }

  /** Sending a rearrangement of a prefix of the order pins that rearranged
      prefix to the front and leaves the rest of the order as it was: a drag
      inside the loaded window reorders only the window. */
  lemma ReorderPinsPrefix(order: seq<Id>, front: seq<Id>, back: seq<Id>, sorted: seq<Id>)
    requires order == front + back
    requires Elems(sorted) == Elems(front) && Elems(back) !! Elems(front)
    ensures ApplyReorder(order, sorted) == sorted + back
  {
    var S := Elems(sorted);
    assert ApplyReorder(order, sorted) == sorted + Drop(front + back, S);
    DropAppend(front, back, S);
    DropOwn(front);
    assert Drop(front, S) == [];
    DropNothing(back, S);
    assert Drop(front + back, S) == back;
  }

  /** With a duplicate-free front drawn from a duplicate-free order, the merge
      only rearranges: same ids, each as often as before. */
  lemma ReorderIsPermutation(order: seq<Id>, sorted: seq<Id>)
    requires NoDups(order) && NoDups(sorted) && Elems(sorted) <= Elems(order)
    ensures |ApplyReorder(order, sorted)| == |order|
    ensures multiset(ApplyReorder(order, sorted)) == multiset(order)
  {
    var r := ApplyReorder(order, sorted);
    assert r == sorted + r[|sorted|..];
    forall x ensures multiset(r)[x] == multiset(order)[x] {
      NoDupsCount(order, x);
      NoDupsCount(sorted, x);
      if x in sorted {
        assert x in Elems(sorted);
      }
    }
    assert multiset(r) == multiset(order);
    assert |multiset(r)| == |multiset(order)|;
  }

  /** A repeated id is not rejected: sending `[x, x]` for an id of a
      duplicate-free order leaves that id twice in an order one longer
      (for example [1, 2] merged with [1, 1] gives [1, 1, 2]). */
  lemma ReorderRepeatsDuplicates(order: seq<Id>, x: Id)
    requires NoDups(order) && x in order
    ensures multiset(ApplyReorder(order, [x, x]))[x] == 2
    ensures |ApplyReorder(order, [x, x])| == |order| + 1
  {
    var rest := Drop(order, Elems([x, x]));
    assert ApplyReorder(order, [x, x]) == [x, x] + rest;
    assert x in Elems([x, x]);
    NoDupsCount(order, x);
    assert multiset(order) == multiset(rest) + multiset{x} by {
      forall y ensures multiset(order)[y] == (multiset(rest) + multiset{x})[y] {
        if y != x {
          assert y !in Elems([x, x]);
        }
      }
    }
    assert |multiset(order)| == |multiset(rest)| + 1;
  }

  /** An unknown id is not rejected: sending `[x]` for an id the order lacks
      puts it in front of the whole old order (for example [1, 2] merged with
      [7] gives [7, 1, 2]). */
  lemma ReorderAdmitsUnknownIds(order: seq<Id>, x: Id)
    requires x !in order
    ensures ApplyReorder(order, [x]) == [x] + order
  {
    assert Elems(order) !! Elems([x]) by {
      assert forall y :: y in Elems([x]) ==> y == x;
    }
    DropNothing(order, Elems([x]));
  }

  /** `POST /state`: merge `sorted` when present, replace the selection with
      `selected` when present. */
  function UpdateState(st: Store, body: UpdateBody): (r: Store)
    ensures r.catalog == st.catalog
    ensures body.sorted.None? ==> r.sortedIds == st.sortedIds
    ensures body.sorted.Some? ==> body.sorted.value <= r.sortedIds
    ensures body.sorted.Some? ==> r.sortedIds == ApplyReorder(st.sortedIds, body.sorted.value)
    ensures body.selected.None? ==> r.selectedIds == st.selectedIds
    ensures body.selected.Some? ==> r.selectedIds == body.selected.value
  {
    var order := if body.sorted.Some? then ApplyReorder(st.sortedIds, body.sorted.value) else st.sortedIds;
    var sel := if body.selected.Some? then body.selected.value else st.selectedIds;
    Store(st.catalog, order, sel)
  }

  /** Selection replacement ignores the prior selection, so repeating it
      changes nothing. */
  lemma SelectionReplaceIdempotent(st: Store, ids: set<Id>)
    ensures var once := UpdateState(st, UpdateBody(None, Some(ids)));
      && UpdateState(once, UpdateBody(None, Some(ids))) == once
      && once.sortedIds == st.sortedIds
  {
  }

  /** What makes a `sorted` field safe for the store invariant: no repeats and
      only catalog ids. The handler does not check it. */
  predicate SafeBody(catalog: seq<Item>, body: UpdateBody) {
    body.sorted.Some? ==>
      NoDups(body.sorted.value) && Elems(body.sorted.value) <= Elems(CatalogIds(catalog))
  }

  /** A safe update keeps the store valid and the order a rearrangement of
      the old one. */
  lemma UpdatePreservesValid(st: Store, body: UpdateBody)
    requires Valid(st) && SafeBody(st.catalog, body)
    ensures Valid(UpdateState(st, body))
    ensures multiset(UpdateState(st, body).sortedIds) == multiset(st.sortedIds)
  {
    if body.sorted.Some? {
      var sorted := body.sorted.value;
      var S := Elems(sorted);
      var rest := Drop(st.sortedIds, S);
      ReorderIsPermutation(st.sortedIds, sorted);
      DropNoDups(st.sortedIds, S);
      assert Elems(sorted) !! Elems(rest);
      AppendNoDups(sorted, rest);
      assert ApplyReorder(st.sortedIds, sorted) == sorted + rest;
      assert Elems(sorted + rest) == Elems(st.sortedIds);
    }
  }

  /** Apply a run of `POST /state` bodies in order. */
  function Replay(st: Store, bodies: seq<UpdateBody>): (r: Store)
    decreases |bodies|
  {
    if |bodies| == 0 then st else Replay(UpdateState(st, bodies[0]), bodies[1..])
  }

  /** Any run of safe updates leaves the canonical order a permutation of
      the order it started from. */
  lemma {:induction false} ReplayPreservesValid(st: Store, bodies: seq<UpdateBody>)
    requires Valid(st)
    requires forall i :: 0 <= i < |bodies| ==> SafeBody(st.catalog, bodies[i])
    ensures Valid(Replay(st, bodies))
    ensures multiset(Replay(st, bodies).sortedIds) == multiset(st.sortedIds)
    decreases |bodies|
  {
    if |bodies| > 0 {
      UpdatePreservesValid(st, bodies[0]);
      ReplayPreservesValid(UpdateState(st, bodies[0]), bodies[1..]);
    }
  }

  // ---------------------------------------------------------------------
  // Validated reorder (not in the handler)
  // ---------------------------------------------------------------------

  datatype ReorderError = RepeatedId | UnknownId

  /** A reorder that rejects what the handler lets through: a repeated id, or
      an id the current order does not hold. The handler has no such check;
      this is the hardened variant, with the permutation guarantee it buys. */
  function CheckedReorder(st: Store, sorted: seq<Id>): (r: Result<Store, ReorderError>)
    ensures r.Success? <==> NoDups(sorted) && Elems(sorted) <= Elems(st.sortedIds)
    ensures r.Failure? ==> (r.error == RepeatedId <==> !NoDups(sorted))
    ensures r.Success? ==> r.value == st.(sortedIds := ApplyReorder(st.sortedIds, sorted))
    ensures r.Success? && Valid(st) ==>
      Valid(r.value) && multiset(r.value.sortedIds) == multiset(st.sortedIds)
  {
    if !NoDups(sorted) then Failure(RepeatedId)
    else if !(Elems(sorted) <= Elems(st.sortedIds)) then Failure(UnknownId)
    else
      var next := UpdateState(st, UpdateBody(Some(sorted), None));
      if Valid(st) then
        UpdatePreservesValid(st, UpdateBody(Some(sorted), None));
        Success(next)
      else
        Success(next)
  }
}

=== FILE: sync.dfy ===
/** The client and the server together. When every reply comes from the
    current server store, the client's buffer stays a prefix of the store's
    filtered view, its `total` matches the view's length, and a drag keeps
    the canonical order a permutation of the catalog. */
module Sync {
  import opened Options
  import opened Seqs
  import opened Protocol
  import opened Server
  import opened ClientApp
  import opened ListView

  /** The server's effect of the requests a client step sent: fetches only
      read, each `POST /state` is applied in order. */
  function Deliver(st: Store, sent: seq<Request>): (r: Store)
    decreases |sent|
  {
    if |sent| == 0 then st
    else
      var st1 := if sent[0].PostState? then UpdateState(st, sent[0].body) else st;
      Deliver(st1, sent[1..])
  }

  /** The reply a `FetchItems` request receives from the store. */
  function Serve(st: Store, req: Request): (r: ItemsResponse)
    requires req.FetchItems?
  {
    GetItems(st, req.offset, req.limit, req.search)
  }

  /** `GET /state` on a valid store, with every row resolved, as the client
      receives it. */
  function StateReply(st: Store): (r: StateResponse)
    requires Valid(st)
    ensures r.items == GetItems(st, 0, StatePage, "").items
    ensures r.total == |st.catalog| && r.selectedIds == st.selectedIds
  {
    var v := GetState(st);
    StateIsFirstPage(st);
    var items := seq(|v.rows|, k requires 0 <= k < |v.rows| => v.rows[k].value);
    assert items == GetItems(st, 0, StatePage, "").items;
    StateResponse(items, v.total, v.selectedIds)
  }

  /** The buffer is the start of the store's view under the settled query,
      and the client's total is the view's length. */
  predicate Mirrors(c: Client, st: Store) {
    && Valid(st)
    && Ids(c.items) <= DisplayIds(st, c.debounced)
    && c.total == |DisplayIds(st, c.debounced)|
  }

  /** A window from `offset` appended to a buffer holding exactly the first
      `offset` displayed ids extends it to a longer prefix of the view. */
  lemma WindowExtendsPrefix(st: Store, buffer: seq<Entry>, limit: nat, search: string)
    requires Ids(buffer) <= DisplayIds(st, search)
    ensures var w := GetItems(st, |buffer|, limit, search);
      && Ids(buffer + w.items) <= DisplayIds(st, search)
      && |buffer + w.items| == Min(|buffer| + limit, w.total)
  {
    var d := DisplayIds(st, search);
    var w := GetItems(st, |buffer|, limit, search);
    WindowIds(st, |buffer|, limit, search);
    IdsAppend(buffer, w.items);
    PrefixThenWindow(Ids(buffer), Ids(w.items), d, limit);
  }

  /** A prefix of `d` followed by the next window of `d` is a longer prefix. */
  lemma PrefixThenWindow(a: seq<Id>, b: seq<Id>, d: seq<Id>, limit: nat)
    requires a <= d && b == d[|a|..Min(|a| + limit, |d|)]
    ensures a + b <= d && |a + b| == Min(|a| + limit, |d|)
  {
    assert a == d[..|a|];
    assert d[..|a|] + d[|a|..Min(|a| + limit, |d|)] == d[..Min(|a| + limit, |d|)];
  }

  /** A non-empty settled query answered by the store leaves a buffer that
      mirrors the store, holding the first 40 matches or all of them. */
  lemma SearchResetMirrors(c: Client, st: Store, q: string)
    requires Valid(st) && q != ""
    ensures var s := SettledQuery(c, q);
      var c2 := SearchLoaded(s.next, Delivered(Serve(st, s.sent[0])));
      && Mirrors(c2, st)
      && |c2.items| == Min(SearchPage, c2.total)
      && !c2.loading
  {
    var s := SettledQuery(c, q);
    WindowExtendsPrefix(st, [], SearchPage, q);
    assert [] + GetItems(st, 0, SearchPage, q).items == GetItems(st, 0, SearchPage, q).items;
  }

  /** An empty settled query answered by the store leaves a buffer that
      mirrors the store, and the client adopts the server's selection. */
  lemma StateResetMirrors(c: Client, st: Store)
    requires Valid(st)
    ensures var s := SettledQuery(c, "");
      var c2 := StateLoaded(s.next, Delivered(StateReply(st)));
      && s.sent == [FetchState]
      && Mirrors(c2, st)
      && c2.selectedIds == st.selectedIds
      && |c2.items| == Min(StatePage, c2.total)
  {
    EmptySearchShowsOrder(st);
    ValidOrderLength(st);
    WindowExtendsPrefix(st, [], StatePage, "");
    assert [] + GetItems(st, 0, StatePage, "").items == GetItems(st, 0, StatePage, "").items;
  }

  /** Mounting the app: from the hooks' initial values the first settled
      query is the empty one, which asks for the server state; once answered,
      the buffer mirrors the store and holds the state page with the
      server's selection. */
  lemma MountLoadsState(st: Store)
    requires Valid(st)
    ensures var s := SettledQuery(Initial(), "");
      var c2 := StateLoaded(s.next, Delivered(StateReply(st)));
      && s.sent == [FetchState]
      && Mirrors(c2, st)
      && c2.selectedIds == st.selectedIds
      && |c2.items| == Min(StatePage, |st.catalog|)
  {
    StateResetMirrors(Initial(), st);
    ValidOrderLength(st);
    EmptySearchShowsOrder(st);
  }

  /** A load the list triggers, answered by the store, strictly grows the
      buffer, keeps the old buffer as its prefix, and keeps it mirroring the
      store without passing `total`. */
  lemma LoadMoreMirrors(c: Client, st: Store, visibleStopIndex: nat)
    requires Mirrors(c, st)
    ensures var s := OnItemsRendered(c, visibleStopIndex);
      s.sent != [] ==>
        var c2 := LoadMoreDone(s.next, Delivered(Serve(st, s.sent[0])));
        && Mirrors(c2, st)
        && c.items < c2.items
        && |c2.items| <= c2.total
        && !c2.loading
  {
    var s := OnItemsRendered(c, visibleStopIndex);
    if s.sent != [] {
      WindowExtendsPrefix(st, c.items, LoadPage, c.debounced);
    }
  }

  lemma IdsSlice(s: seq<Entry>, i: nat, j: nat)
    requires i <= j <= |s|
    ensures Ids(s[i..j]) == Ids(s)[i..j]
  {
  }

  /** Moving entries moves their ids the same way. */
  lemma IdsMove(s: seq<Entry>, from: nat, to: nat)
    requires from < |s| && to < |s|
    ensures Ids(Move(s, from, to)) == Move(Ids(s), from, to)
  {
    var rest := Remove(s, from);
    IdsAppend(s[..from], s[from + 1..]);
    IdsSlice(s, 0, from);
    IdsSlice(s, from + 1, |s|);
    assert Ids(rest) == Remove(Ids(s), from);
    IdsAppend(rest[..to] + [s[from]], rest[to..]);
    IdsAppend(rest[..to], [s[from]]);
    IdsSlice(rest, 0, to);
    IdsSlice(rest, to, |rest|);
  }

  /** Filtering two rearrangements of one order keeps the same number of ids. */
  lemma KeepPermutationLength(a: seq<Id>, b: seq<Id>, S: set<Id>)
    requires multiset(a) == multiset(b)
    ensures |Keep(a, S)| == |Keep(b, S)|
  {
    assert multiset(Keep(a, S)) == multiset(Keep(b, S));
    assert |multiset(Keep(a, S))| == |multiset(Keep(b, S))|;
  }

  /** A prefix of a duplicate-free sequence is duplicate-free. */
  lemma PrefixNoDups(a: seq<Id>, b: seq<Id>)
    requires a <= b && NoDups(b)
    ensures NoDups(a)
  {
    assert forall i :: 0 <= i < |a| ==> a[i] == b[i];
  }

  /** A drag inside a mirroring buffer, with its reorder delivered to the
      store, keeps the store valid, the canonical order a permutation of
      what it was, and the moved buffer a prefix of the new view. */
  lemma HoverMirrors(c: Client, st: Store, draggedId: Id, hoverIndex: nat)
    requires Mirrors(c, st)
    ensures var s := OnHover(c, draggedId, hoverIndex);
      var st2 := Deliver(st, s.sent);
      && Valid(st2)
      && multiset(st2.sortedIds) == multiset(st.sortedIds)
      && Mirrors(s.next, st2)
  {
    var s := OnHover(c, draggedId, hoverIndex);
    var m := Hover(c.items, draggedId, hoverIndex);
    if m.Some? {
      var q := c.debounced;
      var F := FilteredIds(st.catalog, q);
      var d := DisplayIds(st, q);
      var ids := Ids(c.items);
      var moved := Move(c.items, m.value.dragIndex, hoverIndex);
      var newIds := Ids(moved);
      assert s.next.items == moved;
      IdsMove(c.items, m.value.dragIndex, hoverIndex);
      DisplayNoDups(st, q);
      PrefixNoDups(ids, d);
      PermutationNoDups(newIds, ids);
      assert forall x :: x in newIds <==> x in ids by {
        forall x ensures x in newIds <==> x in ids {
          assert x in multiset(newIds) <==> x in multiset(ids);
        }
      }
      assert forall x :: x in ids ==> x in d by {
        forall x | x in ids ensures x in d {
          var i :| 0 <= i < |ids| && ids[i] == x;
          assert d[i] == x;
        }
      }
      var body := UpdateBody(Some(newIds), None);
      assert Elems(newIds) <= Elems(st.sortedIds);
      assert SafeBody(st.catalog, body);
      UpdatePreservesValid(st, body);
      var st2 := UpdateState(st, body);
      assert Deliver(st, s.sent) == st2 by {
        assert s.sent == [PostState(body)];
        assert Deliver(st2, []) == st2;
      }
      var rest := Drop(st.sortedIds, Elems(newIds));
      assert st2.sortedIds == newIds + rest;
      KeepAppend(newIds, rest, F);
      KeepEverything(newIds, F);
      assert DisplayIds(st2, q) == newIds + Keep(rest, F);
      KeepPermutationLength(st2.sortedIds, st.sortedIds, F);
    } else {
      assert Deliver(st, []) == st;
    }
  }

  /** A checkbox change delivered to the store leaves the server's selection
      equal to the client's, whatever the server held before: the whole set
      is sent, so a diverged server is brought back in line. The order and
      the mirror stay intact. */
  lemma SelectionSync(c: Client, st: Store, id: Id, checked: bool)
    ensures var s := SelectionChange(c, id, checked);
      var st2 := Deliver(st, s.sent);
      && st2.selectedIds == s.next.selectedIds
      && st2.sortedIds == st.sortedIds
      && (Mirrors(c, st) ==> Mirrors(s.next, st2))
  {
    var s := SelectionChange(c, id, checked);
    var st2 := UpdateState(st, s.sent[0].body);
    assert Deliver(st2, []) == st2;
    assert st2 == st.(selectedIds := s.next.selectedIds);
  }
}

=== FILE: text.dfy ===
/** The case-insensitive substring test the item filter applies to labels. */
module Text {

  /** Lower-case one character. Covers ASCII `A`-`Z` and the Cyrillic capitals
      U+0400-U+042F (the catalog labels are Russian); every other character
      maps to itself. */
  function LowerChar(c: char): (r: char) {
    if 'A' <= c <= 'Z' then (c as int + 32) as char
    else if '\U{0410}' <= c <= '\U{042F}' then (c as int + 32) as char
    else if '\U{0400}' <= c <= '\U{040F}' then (c as int + 80) as char
    else c
  }

  /** JavaScript `toLowerCase`, character by character. */
  function Lower(s: string): (r: string)
    ensures |r| == |s|
    ensures forall i :: 0 <= i < |s| ==> r[i] == LowerChar(s[i])
  {
    seq(|s|, i requires 0 <= i < |s| => LowerChar(s[i]))
  }

  /** `needle` occurs in `hay` starting at index `i`. */
  predicate OccursAt(hay: string, needle: string, i: int) {
    0 <= i && i + |needle| <= |hay| && hay[i..i + |needle|] == needle
  }

  /** JavaScript `hay.includes(needle)`: try every start position left to right. */
  predicate Contains(hay: string, needle: string)
    decreases |hay|
  {
    needle <= hay || (|hay| > 0 && Contains(hay[1..], needle))
  }

  /** An occurrence in the tail is an occurrence one place later in the whole. */
  lemma OccursInTail(hay: string, needle: string, i: int)
    requires |hay| > 0 && 0 <= i
    ensures OccursAt(hay[1..], needle, i) <==> OccursAt(hay, needle, i + 1)
  {
    if 0 <= i && i + |needle| <= |hay| - 1 {
      assert hay[1..][i..i + |needle|] == hay[i + 1..i + 1 + |needle|];
    }
  }

  /** `Contains` finds an occurrence exactly when there is one. */
  lemma {:induction false} ContainsIffOccurs(hay: string, needle: string)
    ensures Contains(hay, needle) <==> exists i :: OccursAt(hay, needle, i)
    decreases |hay|
  {
    if needle <= hay {
      assert OccursAt(hay, needle, 0);
    } else {
      assert !OccursAt(hay, needle, 0);
      if |hay| > 0 {
        ContainsIffOccurs(hay[1..], needle);
        if i :| OccursAt(hay, needle, i) {
          assert i >= 1;
          OccursInTail(hay, needle, i - 1);
        }
        if i :| OccursAt(hay[1..], needle, i) {
          OccursInTail(hay, needle, i);
        }
      }
    }
  }

  /** The item filter's test: the lower-cased label contains the lower-cased query. */
  predicate Matches(text: string, search: string) {
    Contains(Lower(text), Lower(search))
  }

  /** Every label contains the empty query. */
  lemma EmptySearchMatches(text: string)
    ensures Matches(text, "")
  {
    assert Lower("") == [];
  }

  lemma LowerIdempotent(s: string)
    ensures Lower(Lower(s)) == Lower(s)
  {
  }

  /** The filter cannot tell a query or a label from its lower-cased form. */
  lemma MatchesIgnoresCase(text: string, search: string)
    ensures Matches(text, search) == Matches(Lower(text), search)
    ensures Matches(text, search) == Matches(text, Lower(search))
  {
    LowerIdempotent(text);
    LowerIdempotent(search);
  }
}
